=== FILE: README.md ===
# PR size checker — decision core

A GitHub Actions script that classifies a pull request by its changed-line
total (additions plus deletions) into one of four size tiers (`small`,
`medium`, `large`, `extra-large`). It then makes the pull request carry
exactly that tier's label, and it may post a one-time advisory comment on
large pull requests. This project models the decisions the script takes
between its REST calls as pure Dafny functions, and proves what they
guarantee:

- `tiers.dfy` (`Tiers`): the tier type, its wire names (the `sizeLabels` array), and its order.
- `classification.dfy` (`Classification`): the total, and the three inclusive thresholds checked in order.
- `labels.dfy` (`Labels`): the removal list and the add decision. It also covers the colour table, the create-label decision, and the label list after a run whose calls all succeed.
- `text.dfy` (`Text`): `includes` and decimal rendering, as the comment logic uses them.
- `advisory.dfy` (`Advisory`): the comment gate, the de-duplication predicate, and the advisory text.
- `sizecheck.dfy` (`SizeCheck`): one whole run. It gives the outputs `size-label` and `lines-changed`, every call the run issues, and the state those calls leave. It also proves what a second run on that state does.
- `wrappers.dfy` (`Wrappers`): `Option`.

Labels are modelled as the snapshot's array of names, in order. A
remove-label call drops every occurrence of the name. An add-labels call
appends the name. The platform's label registry is modelled as the set of
names for which get-label succeeds. The identity behind the token is a
parameter, `poster`: it is the author type the platform records for the
comment the run posts.

Notes on behaviour:

- Classification is monotone in the total for any thresholds, ascending or
  not (`ClassifyMonotone` has no ordering precondition). A misordered set
  of thresholds does not make the tiers non-monotone. Instead it makes a
  tier unreachable (`MisorderedHidesTier`).
- The comment de-duplication recognises only comments whose author type is
  `Bot`. When the token belongs to a user, the advisory the run posts is not
  recognised, and every later run on the same large pull request posts it
  again (`NonBotCommentIsIgnored`).
- The script lists the thread's comments with one request and no
  pagination, so it sees only the oldest 30 comments (`FirstPage`). On a
  thread that already holds 30 comments, the advisory a run posts is never
  seen by a later run, and every later run posts it again
  (`RerunRepostsIff`).
- The advisory's heading and closing glyphs are modelled as the characters
  the script file holds. These are a warning sign and a rocket whose UTF-8
  bytes were stored a second time as Windows-1252 text.
- The platform keeps a pull request's labels as a set. The script works on
  the event payload's array. "Exactly one tier label", counted with
  multiplicity, is therefore proved for snapshots without duplicate names.
  The membership form holds for every snapshot.

## Model

| member | source | states |
|---|---|---|
| Tiers.TablesAgree | index.js:38-53 | the tier at each position of the size order is named by the same position of the `sizeLabels` array |
| Tiers.ParseName | index.js:53 | every tier name is one of the four `sizeLabels`, and parsing it gives the tier back |
| Tiers.NameParse | index.js:53 | a label parses as a tier exactly when it is in `sizeLabels`, and then it is that tier's name |
| Tiers.NameInjective | index.js:38-47 | the four tiers have four different label names |
| Classification.Classify | index.js:38-47 | the tier returned always admits the total under its own inclusive bound |
| Classification.ClassifyIsFirstMatch | index.js:38-47 | the tier is the first tier, in size order, whose bound admits the total, and no other tier satisfies that |
| Classification.ClassifyBoundaries | index.js:39-47 | with ascending thresholds: small iff total <= small; medium iff small < total <= medium; large iff medium < total <= large; extra-large iff total > large |
| Classification.ClassifyMonotone | index.js:39-47 | for any thresholds, a larger total never yields a lower-ranked tier |
| Classification.EveryTierReachable | index.js:39-47 | with strictly ascending thresholds, each threshold is in its own tier and one more line moves to the next tier |
| Classification.MisorderedHidesTier | index.js:39-47 | a threshold not above an earlier one makes its tier unreachable |
| Labels.LabelsToRemove | index.js:53-58 | the removal list holds exactly the snapshot labels that are tier labels other than the computed one, so no non-tier label and never the computed label is removed |
| Labels.RemoveLabel | index.js:62-67 | after one removal the name is gone, every other label remains, and a duplicate-free list stays duplicate-free |
| Labels.RemoveLabels | index.js:60-72 | after the removal loop, the labels left are exactly those not named in the removal list |
| Labels.RemoveTierLabelKeepsOthers | index.js:62-67 | removing a tier label leaves the non-tier labels unchanged, order included |
| Labels.RemoveTierLabelsKeepsOthers | index.js:60-72 | removing any list of tier labels leaves the non-tier labels unchanged, order included |
| Labels.NothingStaleNothingRemoved | index.js:56-58 | a label list without stale tier labels yields an empty removal list |
| Labels.Color | index.js:85-90 | every tier's colour is a six-digit lower-case hexadecimal colour |
| Labels.ColorsDistinct | index.js:85-90 | the four tiers get four different colours |
| Labels.Reconcile | index.js:56-112 | the labels after a successful run are the snapshot labels that are not stale, plus the computed label |
| Labels.ReconcileConverges | index.js:56-112 | after a successful run the computed label is present and is the only tier label; the non-tier labels are those of the snapshot in the same order; without duplicates the tier labels are exactly the computed one |
| Labels.ReconcileNoOpIff | index.js:56-75 | a run leaves the labels as they were exactly when it removes nothing and adds nothing |
| Labels.ReconcileIdempotent | index.js:56-75 | planning again on the produced labels with the same tier removes nothing, adds nothing and changes nothing |
| Text.ContainsIffOccurs | index.js:144 | the substring test holds exactly when the substring occurs at some position |
| Text.NatDecimal | index.js:120 | a natural number renders as a non-empty string of decimal digits with no leading zero unless the number is 0; with `DecimalRoundTrip` this is the only such string reading back as the number, as a template literal writes it below 10^21 |
| Text.DecimalRoundTrip | index.js:120 | every integer's rendering reads back as that integer, so the rendered total names the real total |
| Text.DecimalExamples | index.js:120-131 | 550 renders as `550` and 200 as `200` |
| Text.JoinContainsPiece | index.js:118-133 | text built by concatenating pieces contains each of its pieces |
| Advisory.FirstPage | index.js:136-140 | the comments listed are the oldest ones of the thread, at most 30 |
| Advisory.FirstPageSeesNewComment | index.js:136-140 | a comment added to a thread of fewer than 30 comments is listed at the end of the page; one added to a thread of 30 or more is not listed |
| Advisory.FindAdvisory | index.js:142-145 | the result is the position of the first comment by a `Bot` author whose body has the marker phrase, or none when no comment qualifies |
| Advisory.AdvisoryBody | index.js:118-133 | the advisory text contains the marker phrase, the total, the tier name and the medium threshold |
| Advisory.DecideComment | index.js:117-157 | nothing is considered unless commenting is on and the tier is large or extra-large; a comment is posted iff that gate holds and no comment is a `Bot` advisory; the posted text carries the marker |
| Advisory.AdvisoryBlocksRepost | index.js:142-153 | once the listed comments include a `Bot` comment with the marker phrase, the run does not post, whatever its tier or counts |
| Advisory.NonBotCommentIsIgnored | index.js:142-147 | appending a comment whose author type is not `Bot`, even one carrying the marker, leaves the decision unchanged, so an advisory posted under a user identity is posted again |
| SizeCheck.Run | index.js:31-162 | `lines-changed` is additions plus deletions; `size-label` is a tier label naming the classified tier; removals are stale tier labels of the snapshot; the add happens iff the label is absent; a creation implies an add of the same name; a post happens only when no listed comment (first page) is a `Bot` advisory, and the posted advisory renders the total and the medium threshold |
| SizeCheck.Apply | index.js:60-153 | the state the calls leave: a label remains iff it was there and not removed, or it is the added one; the registry gains exactly the created name; the thread gains exactly the posted comment, at its end, under the poster's author type |
| SizeCheck.LabelExistsBeforeAdd | index.js:75-112 | whenever the run adds the label, the registry it leaves holds that label; a label is created only when the registry lacked it; the registry is untouched when nothing is added |
| SizeCheck.RunConvergesLabels | index.js:56-112 | the labels a successful run leaves contain the reported `size-label` as their only tier label and keep every other label |
| SizeCheck.RerunIsQuiet | index.js:20-114 | a second run, on a new event whose payload carries the produced labels, reports the same outputs and issues no remove, create or add call |
| SizeCheck.RerunRepostsIff | index.js:117-157 | the second run posts the advisory again exactly when the first posted it and either the poster's author type is not `Bot` or the thread already held 30 comments |
| SizeCheck.SmallExample | index.js:33-104 | thresholds 50/200/500 and +30 -10 give `small`, 40 lines, no comment, and a created green `small` label |
| SizeCheck.ExtraLargeExample | index.js:33-148 | thresholds 50/200/500 and +300 -250 give `extra-large`, 550 lines, removal of the stale `small` label, and a posted advisory |
| SizeCheck.ExtraLargeAdvisoryText | index.js:118-131 | the advisory of that example contains the renderings of 550 and of the medium threshold 200 |

## Left out

- The REST calls (get pull request, remove label, get label, create label, add labels, list comments, create comment) are network I/O. The model computes which calls a run issues, and `Apply` gives the state those calls produce when they succeed.
- Failure handling (index.js:69-71, 101-103, 165-167) is not modelled. A failed removal is only logged, and it leaves a stale tier label behind; `ReconcileConverges` and `RerunIsQuiet` assume that every call succeeds. A failed creation is logged, and the add is attempted anyway. Any other error fails the run.
- `LabelToCreate`: a get-label call that fails for any reason leads to a create attempt. The model only knows "present in the registry" or "absent".
- Reading the inputs with `core.getInput` and `parseInt`: thresholds are plain integers. The `NaN` an unparsable input gives is not modelled. A `NaN` threshold admits no total, so its tier is never produced (a `NaN` small threshold with medium 200 puts a total of 40 in `medium`). Every total is `extra-large` only when all three thresholds are `NaN`. A `NaN` medium threshold renders as `NaN` in the advisory (index.js:131).
- SizeCheck.Apply: the platform matches label names regardless of case, the script's `includes` checks (index.js:56-57, 75) do not. `Apply`, `RunConvergesLabels`, `RerunIsQuiet` and `RerunRepostsIff` assume that no case variant of a tier name (such as `Small`) exists in the registry or on the pull request. With a registry label `Small`, get-label finds it, add-labels attaches `Small`, and every later run adds again.
- Text.Decimal: JavaScript writes a number of magnitude 10^21 or more in exponent form (`1e+21`), not as digits. The model renders every integer as digits, so for such a total or threshold the posted text it describes differs from the script's.
- The check that the event carries a pull request (index.js:15-18) is host plumbing. The model starts from a pull request snapshot.
- Logging (`core.info`, `core.warning`) and the act of publishing outputs (`core.setOutput`). The published values are the `sizeLabel` and `linesChanged` fields of `Outcome`.
- Two concurrent runs on the same pull request can race on removal, creation and de-duplication. Concurrency is outside the script's control.
- SizeCheck.RerunIsQuiet: the labels are read from the event payload (index.js:20, 52), not from the fetched pull request. The lemma is about a second run triggered by a new event whose payload carries the labels the first run left. A re-run that replays the first event's payload re-issues the same removals, which fail and are only logged, and re-issues the add.

=== FILE: advisory.dfy ===
/** The advisory comment posted on large pull requests: whether to post it,
    how an earlier one is recognised, and what it says. */
module Advisory {
  import opened Wrappers
  import opened Tiers
  import opened Classification
  import opened Text

  /** The phrase that identifies the advisory comment. */
  const Marker: string := "Large Pull Request Detected"

  /** The author type the platform reports for automated identities. */
  const BotType: string := "Bot"

  /** A comment of the pull request's discussion thread: its author's type
      and its body. */
  datatype Comment = Comment(authorType: string, body: string)

  /** The de-duplication heuristic: a comment by an automated identity whose
      body contains the marker phrase. */
  predicate IsAdvisory(c: Comment)
  {
    c.authorType == BotType && Contains(c.body, Marker)
  }

  /** `comments.find(...)`: the position of the first advisory comment. */
  function FindAdvisory(comments: seq<Comment>): (r: Option<nat>)
    ensures r.Some? ==> r.value < |comments| && IsAdvisory(comments[r.value])
    ensures r.Some? ==> forall j :: 0 <= j < r.value ==> !IsAdvisory(comments[j])
    ensures r.None? ==> forall j :: 0 <= j < |comments| ==> !IsAdvisory(comments[j])
  {
    if |comments| == 0 then None
    else if IsAdvisory(comments[0]) then Some(0)
    else
      match FindAdvisory(comments[1..])
      case None => None
      case Some(i) => Some(i + 1)
  }

  /** The number of comments one list-comments request returns when it
      names no page size: the platform's default page. */
  const PageSize: nat := 30

  /** The comments the script sees: one list-comments request without
      pagination, which yields the oldest `PageSize` comments of the thread. */
  function FirstPage(comments: seq<Comment>): (page: seq<Comment>)
    ensures |page| <= PageSize && |page| <= |comments|
    ensures page == comments[..|page|]
    ensures |page| == |comments| || |page| == PageSize
  {
    if |comments| <= PageSize then comments else comments[..PageSize]
  }

  /** A comment added to a thread that already fills the first page is never
      listed; one added to a shorter thread always is. */
  lemma FirstPageSeesNewComment(comments: seq<Comment>, c: Comment)
    ensures |comments| < PageSize ==> FirstPage(comments + [c]) == FirstPage(comments) + [c]
    ensures |comments| >= PageSize ==> FirstPage(comments + [c]) == FirstPage(comments)
  {
    if |comments| >= PageSize {
      assert (comments + [c])[..PageSize] == comments[..PageSize];
    }
  }

  /** The gate in front of the comment logic: commenting is enabled and the
      tier is one of the two largest. */
  predicate CommentApplies(commentOnLarge: bool, tier: Tier)
  {
    commentOnLarge && (tier == Large || tier == ExtraLarge)
  }

  /** The advisory's fixed rationale section. The fixed text of the
      advisory is written as short literals: the verifier's cost for a string
      literal grows steeply with its length. */
  function WhySizeMatters(): string
  {
    "### Why does PR size"
      + " matter?\n"
      + "- Smaller PRs are"
      + " easier to review\n"
      + "- Faster feedback"
      + " cycles\n"
      + "- Reduced risk of"
      + " bugs\n"
      + "- Better context for"
      + " reviewers\n"
  }

  /** The advisory's suggestions section, up to the medium threshold. */
  function Suggestions(): string
  {
    "### Suggestions:\n"
      + "- Consider breaking"
      + " this PR into"
      + " smaller, focused"
      + " changes\n"
      + "- Each PR should"
      + " ideally address a"
      + " single concern\n"
      + "- Aim for PRs under "
  }

  /** The advisory's text, with the totals, the tier name and the medium
      threshold filled in. The heading and closing glyphs are the characters
      the script file holds: a warning sign and a rocket whose UTF-8 bytes
      were stored a second time as Windows-1252 text. */
  function AdvisoryBody(additions: nat, deletions: nat, tier: Tier, mediumThreshold: int): (body: string)
    ensures Contains(body, Marker)
    ensures Contains(body, Decimal(TotalChanges(additions, deletions)))
    ensures Contains(body, Name(tier))
    ensures Contains(body, Decimal(mediumThreshold))
  {
    var heading := "## \U{00E2}\U{0161}\U{00A0}\U{00EF}\U{00B8} ";
    var total := Decimal(TotalChanges(additions, deletions));
    var summary1 := "\n\nThis PR has **";
    var summary2 := " lines changed** (+" + Decimal(additions) + "/-" + Decimal(deletions)
      + "), which is marked as **";
    var middle := "**.\n\n" + WhySizeMatters() + "\n" + Suggestions();
    var closing := " lines when" + " possible\n\n" + "Thank you for your" + " contribution! "
      + "\U{00F0}\U{0178}\U{0161}\U{20AC}";
    var pieces := [heading, Marker, summary1, total, summary2, Name(tier), middle,
                   Decimal(mediumThreshold), closing];
    JoinContainsPiece(pieces, 1);
    JoinContainsPiece(pieces, 3);
    JoinContainsPiece(pieces, 5);
    JoinContainsPiece(pieces, 7);
    Join(pieces)
  }

  /** What the comment step does. */
  datatype CommentDecision =
    | NotApplicable     // gate closed: the thread is not even listed
    | AlreadyCommented  // an advisory exists: skip
    | Post(body: string)

  /** The comment decision, given the thread's comments. */
  function DecideComment(commentOnLarge: bool, tier: Tier, comments: seq<Comment>,
                         additions: nat, deletions: nat, mediumThreshold: int): (d: CommentDecision)
    ensures d.NotApplicable? <==> !CommentApplies(commentOnLarge, tier)
    ensures d.Post? <==> CommentApplies(commentOnLarge, tier)
                         && forall i :: 0 <= i < |comments| ==> !IsAdvisory(comments[i])
    ensures d.Post? ==> Contains(d.body, Marker) && IsAdvisory(Comment(BotType, d.body))
  {
    if !CommentApplies(commentOnLarge, tier) then NotApplicable
    else if FindAdvisory(comments).Some? then AlreadyCommented
    else Post(AdvisoryBody(additions, deletions, tier, mediumThreshold))
  }

  /** De-duplication: once the thread holds an advisory (by `DecideComment`'s
      contract, the one a run posts under a `Bot` identity is one), no run on
      that thread posts again, whatever its tier or counts. */
  lemma AdvisoryBlocksRepost(commentOnLarge: bool, tier: Tier, comments: seq<Comment>, c: Comment,
                             additions: nat, deletions: nat, mediumThreshold: int)
    requires IsAdvisory(c)
    ensures !DecideComment(commentOnLarge, tier, comments + [c], additions, deletions, mediumThreshold).Post?
  {
    assert (comments + [c])[|comments|] == c;
  }

  /** The heuristic's blind spot: a comment by an author whose type is not
      `Bot` never changes the decision, even if it is the advisory itself. A
      run whose token belongs to a user therefore posts the advisory again on
      every later run on the same large pull request. */
  lemma NonBotCommentIsIgnored(commentOnLarge: bool, tier: Tier, comments: seq<Comment>, c: Comment,
                               additions: nat, deletions: nat, mediumThreshold: int)
    requires c.authorType != BotType
    ensures DecideComment(commentOnLarge, tier, comments + [c], additions, deletions, mediumThreshold)
         == DecideComment(commentOnLarge, tier, comments, additions, deletions, mediumThreshold)
  {
    var found := FindAdvisory(comments + [c]);
    if found.Some? {
      assert (comments + [c])[found.value] == comments[found.value];
    } else {
      forall i | 0 <= i < |comments|
        ensures !IsAdvisory(comments[i])
      {
        assert (comments + [c])[i] == comments[i];
      }
    }
  }
}

=== FILE: classification.dfy ===
/** Mapping a pull request's changed-line total to a size tier through three
    inclusive thresholds that are checked in order. */
module Classification {
  import opened Tiers

  /** The three thresholds, as parsed from the action's inputs. Nothing
      checks that they are ascending. (An input that does not parse gives
      `NaN` in the script, against which every `<=` is false; that case is
      not modelled: thresholds here are plain integers.) */
  datatype Thresholds = Thresholds(small: int, medium: int, large: int)

  /** Thresholds in the order the inputs are documented to have. */
  predicate Ordered(th: Thresholds)
  {
    th.small <= th.medium <= th.large
  }

  /** The pull request's total: additions plus deletions. */
  function TotalChanges(additions: nat, deletions: nat): nat
  {
    additions + deletions
  }

  /** The inclusive upper bound a tier admits; `extra-large` admits
      everything. */
  predicate WithinBound(total: int, th: Thresholds, t: Tier)
  {
    match t
    case Small => total <= th.small
    case Medium => total <= th.medium
    case Large => total <= th.large
    case ExtraLarge => true
  }

  /** The tier of a total: the first tier, in size order, whose bound admits
      it. */
  function Classify(total: int, th: Thresholds): (t: Tier)
    ensures WithinBound(total, th, t)
  {
    if total <= th.small then Small
    else if total <= th.medium then Medium
    else if total <= th.large then Large
    else ExtraLarge
  }

  /** Reference definition: `t` is the first tier in `AllTiers` whose bound
      admits the total. */
  ghost predicate FirstMatch(total: int, th: Thresholds, t: Tier)
  {
    && WithinBound(total, th, t)
    && forall i :: 0 <= i < Rank(t) ==> !WithinBound(total, th, AllTiers[i])
  }

  /** `Classify` returns the first matching tier and nothing else: it is
      total, and exactly one tier satisfies `FirstMatch`. */
  lemma ClassifyIsFirstMatch(total: int, th: Thresholds, t: Tier)
    ensures Classify(total, th) == t <==> FirstMatch(total, th, t)
  {
    assert AllTiers[0] == Small && AllTiers[1] == Medium && AllTiers[2] == Large;
  }

  /** With ascending thresholds each tier is the half-open interval above
      the previous threshold up to and including its own. */
  lemma ClassifyBoundaries(total: int, th: Thresholds)
    requires Ordered(th)
    ensures Classify(total, th) == Small <==> total <= th.small
    ensures Classify(total, th) == Medium <==> th.small < total <= th.medium
    ensures Classify(total, th) == Large <==> th.medium < total <= th.large
    ensures Classify(total, th) == ExtraLarge <==> th.large < total
  {
  }

  /** A larger total never gets a smaller tier. This holds for any
      thresholds, ascending or not: as the total grows the set of bounds that
      admit it only shrinks, so the first admitting tier only moves up. */
  lemma ClassifyMonotone(total1: int, total2: int, th: Thresholds)
    requires total1 <= total2
    ensures Rank(Classify(total1, th)) <= Rank(Classify(total2, th))
  {
  }

  /** With strictly ascending thresholds every tier occurs, each threshold
      itself belongs to the tier it bounds, and one line more moves up. */
  lemma EveryTierReachable(th: Thresholds)
    requires th.small < th.medium < th.large
    ensures Classify(th.small, th) == Small
    ensures Classify(th.small + 1, th) == Medium
    ensures Classify(th.medium, th) == Medium
    ensures Classify(th.medium + 1, th) == Large
    ensures Classify(th.large, th) == Large
    ensures Classify(th.large + 1, th) == ExtraLarge
  {
  }

  /** What misordered thresholds do: a tier whose threshold does not exceed
      an earlier one is never produced. */
  lemma MisorderedHidesTier(total: int, th: Thresholds)
    ensures th.medium <= th.small ==> Classify(total, th) != Medium
    ensures th.large <= th.small || th.large <= th.medium ==> Classify(total, th) != Large
  {
  }
}

=== FILE: labels.dfy ===
/** Reconciling the pull request's labels with the computed tier: which tier
    labels to remove, whether to add the computed one, the definition used
    when the repository lacks it, and the label list that results when every
    call succeeds. Label lists are the snapshot's array of label names, in
    the snapshot's order. */
module Labels {
  import opened Wrappers
  import opened Tiers

  /** A label that the run removes: a tier label other than the computed one. */
  predicate IsStale(l: string, tier: Tier)
  {
    IsTierName(l) && l != Name(tier)
  }

  /** A list in which no label name occurs twice, as on the platform, where
      a pull request's labels form a set. */
  predicate NoDuplicates(labels: seq<string>)
  {
    |labels| == 0 || (labels[0] !in labels[1..] && NoDuplicates(labels[1..]))
  }

  /** The removal list: the stale labels of the snapshot, in snapshot order. */
  function LabelsToRemove(existing: seq<string>, tier: Tier): (r: seq<string>)
    ensures forall l :: l in r <==> l in existing && IsStale(l, tier)
    ensures |r| <= |existing|
  {
    if |existing| == 0 then []
    else if IsStale(existing[0], tier) then [existing[0]] + LabelsToRemove(existing[1..], tier)
    else LabelsToRemove(existing[1..], tier)
  }

  /** The computed label is added only when the snapshot does not carry it. */
  predicate NeedsAdd(existing: seq<string>, tier: Tier)
  {
    Name(tier) !in existing
  }

  /** One successful remove-label call: the name no longer labels the pull
      request, and everything else stays, in order. */
  function RemoveLabel(labels: seq<string>, name: string): (r: seq<string>)
    ensures forall l :: l in r <==> l in labels && l != name
    ensures NoDuplicates(labels) ==> NoDuplicates(r)
    ensures |r| <= |labels|
  {
    if |labels| == 0 then []
    else if labels[0] == name then RemoveLabel(labels[1..], name)
    else [labels[0]] + RemoveLabel(labels[1..], name)
  }

  /** The removal loop: one remove-label call per name, in order, each
      assumed to succeed. */
  function RemoveLabels(labels: seq<string>, names: seq<string>): (r: seq<string>)
    ensures forall l :: l in r <==> l in labels && l !in names
    ensures NoDuplicates(labels) ==> NoDuplicates(r)
    decreases |names|
  {
    if |names| == 0 then labels
    else RemoveLabels(RemoveLabel(labels, names[0]), names[1..])
  }

  /** The pull request's labels after the run, when every call succeeds:
      the stale labels removed, then the computed label appended if the
      snapshot lacked it. */
  function Reconcile(existing: seq<string>, tier: Tier): (r: seq<string>)
    ensures forall l :: l in r <==> (l in existing && !IsStale(l, tier)) || l == Name(tier)
  {
    var kept := RemoveLabels(existing, LabelsToRemove(existing, tier));
    if NeedsAdd(existing, tier) then kept + [Name(tier)] else kept
  }

  /** The tier labels of a list, in order. */
  function TierLabels(labels: seq<string>): (r: seq<string>)
    ensures forall l :: l in r <==> l in labels && IsTierName(l)
  {
    if |labels| == 0 then []
    else if IsTierName(labels[0]) then [labels[0]] + TierLabels(labels[1..])
    else TierLabels(labels[1..])
  }

  /** The labels of a list that are not tier labels, in order. */
  function OtherLabels(labels: seq<string>): (r: seq<string>)
    ensures forall l :: l in r <==> l in labels && !IsTierName(l)
  {
    if |labels| == 0 then []
    else if IsTierName(labels[0]) then OtherLabels(labels[1..])
    else [labels[0]] + OtherLabels(labels[1..])
  }

  /** A hexadecimal colour as the platform expects it: six lower-case hex
      digits, without `#`. */
  predicate IsHexColor(c: string)
  {
    |c| == 6 && forall i :: 0 <= i < |c| ==> c[i] in "0123456789abcdef"
  }

  /** The `labelColors` table: green, yellow, orange, red. */
  function Color(t: Tier): (c: string)
    ensures IsHexColor(c)
  {
    match t
    case Small => "00ff00"
    case Medium => "ffff00"
    case Large => "ff9900"
    case ExtraLarge => "ff0000"
  }

  /** A label definition as sent to the create-label call. */
  datatype LabelDef = LabelDef(name: string, color: string, description: string)

  /** The definition created for a tier's label. */
  function Definition(t: Tier): LabelDef
  {
    LabelDef(Name(t), Color(t), "PR size: " + Name(t))
  }

  /** The create-label decision: a definition is created only on the add
      path, and only when the repository's label registry (the names for
      which get-label succeeds) lacks the computed label. */
  function LabelToCreate(existing: seq<string>, registry: set<string>, tier: Tier): Option<LabelDef>
  {
    if NeedsAdd(existing, tier) && Name(tier) !in registry then Some(Definition(tier)) else None
  }

  /** Each tier has its own colour, so the four labels are told apart. */
  lemma ColorsDistinct(t1: Tier, t2: Tier)
    ensures Color(t1) == Color(t2) <==> t1 == t2
  {
  }

  lemma {:induction false} TierLabelsAppend(a: seq<string>, b: seq<string>)
    ensures TierLabels(a + b) == TierLabels(a) + TierLabels(b)
    decreases |a|
  {
    if |a| == 0 {
      assert a + b == b;
    } else {
      assert (a + b)[1..] == a[1..] + b;
      TierLabelsAppend(a[1..], b);
    }
  }

  lemma {:induction false} OtherLabelsAppend(a: seq<string>, b: seq<string>)
    ensures OtherLabels(a + b) == OtherLabels(a) + OtherLabels(b)
    decreases |a|
  {
    if |a| == 0 {
      assert a + b == b;
    } else {
      assert (a + b)[1..] == a[1..] + b;
      OtherLabelsAppend(a[1..], b);
    }
  }

  /** Removing a tier label leaves the non-tier labels exactly as they were,
      order included. */
  lemma {:induction false} RemoveTierLabelKeepsOthers(labels: seq<string>, name: string)
    requires IsTierName(name)
    ensures OtherLabels(RemoveLabel(labels, name)) == OtherLabels(labels)
    decreases |labels|
  {
    if |labels| > 0 {
      RemoveTierLabelKeepsOthers(labels[1..], name);
      if labels[0] != name {
        assert ([labels[0]] + RemoveLabel(labels[1..], name))[1..] == RemoveLabel(labels[1..], name);
      }
    }
  }

  /** The same for a whole list of tier labels. */
  lemma {:induction false} RemoveTierLabelsKeepsOthers(labels: seq<string>, names: seq<string>)
    requires forall n :: n in names ==> IsTierName(n)
    ensures OtherLabels(RemoveLabels(labels, names)) == OtherLabels(labels)
    decreases |names|
  {
    if |names| > 0 {
      RemoveTierLabelKeepsOthers(labels, names[0]);
      assert forall n :: n in names[1..] ==> n in names;
      RemoveTierLabelsKeepsOthers(RemoveLabel(labels, names[0]), names[1..]);
    }
  }

  /** In a duplicate-free list whose only tier label can be `name`, the tier
      labels are `[name]` when it is present and `[]` otherwise. */
  lemma {:induction false} SoleTierLabel(labels: seq<string>, name: string)
    requires IsTierName(name)
    requires NoDuplicates(labels)
    requires forall l :: l in labels && IsTierName(l) ==> l == name
    ensures TierLabels(labels) == if name in labels then [name] else []
    decreases |labels|
  {
    if |labels| > 0 {
      assert forall l :: l in labels[1..] ==> l in labels;
      SoleTierLabel(labels[1..], name);
      assert labels == [labels[0]] + labels[1..];
    }
  }

  /** Convergence: after the run the computed tier's label is present, it is
      the only tier label, and the non-tier labels are those of the snapshot
      in the same order. When the snapshot has no duplicate names, the tier
      labels of the result are exactly `[Name(tier)]`. */
  lemma {:induction false} ReconcileConverges(existing: seq<string>, tier: Tier)
    ensures Name(tier) in Reconcile(existing, tier)
    ensures forall l :: l in Reconcile(existing, tier) && IsTierName(l) ==> l == Name(tier)
    ensures forall l :: !IsTierName(l) ==> (l in Reconcile(existing, tier) <==> l in existing)
    ensures OtherLabels(Reconcile(existing, tier)) == OtherLabels(existing)
    ensures NoDuplicates(existing) ==> TierLabels(Reconcile(existing, tier)) == [Name(tier)]
  {
    var removals := LabelsToRemove(existing, tier);
    var kept := RemoveLabels(existing, removals);
    ParseName(tier);
    RemoveTierLabelsKeepsOthers(existing, removals);
    if NeedsAdd(existing, tier) {
      OtherLabelsAppend(kept, [Name(tier)]);
      assert OtherLabels([Name(tier)]) == [];
    }
    if NoDuplicates(existing) {
      SoleTierLabel(kept, Name(tier));
      if NeedsAdd(existing, tier) {
        TierLabelsAppend(kept, [Name(tier)]);
      }
    }
  }

  /** A list without stale labels yields an empty removal list. */
  lemma {:induction false} NothingStaleNothingRemoved(labels: seq<string>, tier: Tier)
    requires forall l :: l in labels ==> !IsStale(l, tier)
    ensures LabelsToRemove(labels, tier) == []
    decreases |labels|
  {
    if |labels| > 0 {
      assert forall l :: l in labels[1..] ==> l in labels;
      NothingStaleNothingRemoved(labels[1..], tier);
    }
  }

  /** Idempotence: planning again on the labels the run produced, with the
      same tier, removes nothing, adds nothing and leaves the labels as they
      are. */
  lemma ReconcileIdempotent(existing: seq<string>, tier: Tier)
    ensures LabelsToRemove(Reconcile(existing, tier), tier) == []
    ensures !NeedsAdd(Reconcile(existing, tier), tier)
    ensures Reconcile(Reconcile(existing, tier), tier) == Reconcile(existing, tier)
  {
    var after := Reconcile(existing, tier);
    ReconcileConverges(existing, tier);
    NothingStaleNothingRemoved(after, tier);
  }

  /** A run leaves the labels exactly as they were when, and only when, it
      plans no removal and no add. */
  lemma ReconcileNoOpIff(existing: seq<string>, tier: Tier)
    ensures Reconcile(existing, tier) == existing
            <==> !NeedsAdd(existing, tier) && LabelsToRemove(existing, tier) == []
  {
    var removals := LabelsToRemove(existing, tier);
    if removals != [] {
      var l := removals[0];
      assert l in existing && l !in Reconcile(existing, tier);
    }
  }
}

=== FILE: sizecheck.dfy ===
/** One run of the size checker with every platform call abstracted away:
    the decisions it takes (outputs, label removals, label creation, label
    addition, comment), and the platform state that results when every call
    it issues succeeds. */
module SizeCheck {
  import opened Wrappers
  import opened Tiers
  import opened Classification
  import opened Text
  import opened Labels
  import opened Advisory

  /** The action's inputs, already parsed. */
  datatype Config = Config(thresholds: Thresholds, commentOnLarge: bool)

  /** The pull request snapshot: fetched counts and the event's label names. */
  datatype PullRequest = PullRequest(additions: nat, deletions: nat, labels: seq<string>)

  /** The platform state the run reads: the repository's label registry and
      the pull request's discussion thread. */
  datatype Repository = Repository(registry: set<string>, comments: seq<Comment>)

  /** Everything one run decides. */
  datatype Outcome = Outcome(
    sizeLabel: string,        // output `size-label`
    linesChanged: nat,        // output `lines-changed`
    removals: seq<string>,    // remove-label calls, in order
    created: Option<LabelDef>, // create-label call, if any
    adds: bool,               // whether add-labels is called with `sizeLabel`
    comment: CommentDecision)

  /** The decisions of one run. */
  function Run(cfg: Config, pr: PullRequest, repo: Repository): (o: Outcome)
    ensures o.linesChanged == pr.additions + pr.deletions
    ensures IsTierName(o.sizeLabel)
    ensures Parse(o.sizeLabel) == Some(Classify(o.linesChanged, cfg.thresholds))
    ensures forall l :: l in o.removals ==> l in pr.labels && IsTierName(l) && l != o.sizeLabel
    ensures o.adds <==> o.sizeLabel !in pr.labels
    ensures o.created.Some? ==> o.adds && o.created.value.name == o.sizeLabel
    ensures o.comment.Post? ==> forall c :: c in FirstPage(repo.comments) ==> !IsAdvisory(c)
    ensures o.comment.Post? ==> Contains(o.comment.body, Marker)
                                && Contains(o.comment.body, Decimal(o.linesChanged))
                                && Contains(o.comment.body, Decimal(cfg.thresholds.medium))
  {
    var total := TotalChanges(pr.additions, pr.deletions);
    var tier := Classify(total, cfg.thresholds);
    ParseName(tier);
    Outcome(
      Name(tier),
      total,
      LabelsToRemove(pr.labels, tier),
      LabelToCreate(pr.labels, repo.registry, tier),
      NeedsAdd(pr.labels, tier),
      DecideComment(cfg.commentOnLarge, tier, FirstPage(repo.comments), pr.additions, pr.deletions,
                    cfg.thresholds.medium))
  }

  /** The state after the run's calls all succeed. `poster` is the author
      type the platform records for the identity behind the token. */
  function Apply(pr: PullRequest, repo: Repository, o: Outcome, poster: string): (r: (PullRequest, Repository))
    ensures forall l :: l in r.0.labels <==> (l in pr.labels && l !in o.removals) || (o.adds && l == o.sizeLabel)
    ensures forall n :: n in r.1.registry <==> n in repo.registry || (o.created.Some? && n == o.created.value.name)
    ensures |r.1.comments| == |repo.comments| + (if o.comment.Post? then 1 else 0)
    ensures r.1.comments[..|repo.comments|] == repo.comments
    ensures o.comment.Post? ==> r.1.comments[|repo.comments|] == Comment(poster, o.comment.body)
    ensures r.0.additions == pr.additions && r.0.deletions == pr.deletions
  {
    var labels := RemoveLabels(pr.labels, o.removals) + (if o.adds then [o.sizeLabel] else []);
    var registry := if o.created.Some? then repo.registry + {o.created.value.name} else repo.registry;
    var comments := if o.comment.Post? then repo.comments + [Comment(poster, o.comment.body)] else repo.comments;
    (PullRequest(pr.additions, pr.deletions, labels), Repository(registry, comments))
  }

  /** The run's effect on the pull request's labels is the reconciled label
      list: the stale tier labels gone, the computed tier's label present as
      the only tier label, and the other labels unchanged. */
  lemma RunConvergesLabels(cfg: Config, pr: PullRequest, repo: Repository, poster: string)
    ensures var o := Run(cfg, pr, repo);
            var labels := Apply(pr, repo, o, poster).0.labels;
            && o.sizeLabel in labels
            && (forall l :: l in labels && IsTierName(l) ==> l == o.sizeLabel)
            && OtherLabels(labels) == OtherLabels(pr.labels)
            && (NoDuplicates(pr.labels) ==> TierLabels(labels) == [o.sizeLabel])
  {
    var tier := Classify(TotalChanges(pr.additions, pr.deletions), cfg.thresholds);
    assert Apply(pr, repo, Run(cfg, pr, repo), poster).0.labels == Reconcile(pr.labels, tier);
    ReconcileConverges(pr.labels, tier);
  }

  /** The label is in the repository before it is added: whenever the run
      adds the computed label, the registry it leaves holds that label
      (created if it was missing); a label is created only if the registry
      lacked it, and the registry is untouched when nothing is added. */
  lemma LabelExistsBeforeAdd(cfg: Config, pr: PullRequest, repo: Repository, poster: string)
    ensures var o := Run(cfg, pr, repo);
            var registry := Apply(pr, repo, o, poster).1.registry;
            && (o.adds ==> o.sizeLabel in registry)
            && (o.created.Some? ==> o.sizeLabel !in repo.registry)
            && (!o.adds ==> registry == repo.registry)
  {
  }

  /** A second run on the state the first one produced, triggered by a new
      event whose payload carries the labels the first run left (the labels
      are read from the event payload, not fetched), reports the same outputs
      and issues no label call. Replaying the first event instead re-issues
      the same calls. */
  lemma RerunIsQuiet(cfg: Config, pr: PullRequest, repo: Repository, poster: string)
    ensures var o := Run(cfg, pr, repo);
            var (pr', repo') := Apply(pr, repo, o, poster);
            var o' := Run(cfg, pr', repo');
            && o'.sizeLabel == o.sizeLabel
            && o'.linesChanged == o.linesChanged
            && o'.removals == []
            && !o'.adds
            && o'.created == None
            && Apply(pr', repo', o', poster).0 == pr'
  {
    var o := Run(cfg, pr, repo);
    var tier := Classify(TotalChanges(pr.additions, pr.deletions), cfg.thresholds);
    var (pr', repo') := Apply(pr, repo, o, poster);
    assert pr'.labels == Reconcile(pr.labels, tier);
    ReconcileIdempotent(pr.labels, tier);
  }

  /** When a second run, on the state the first one produced (as in
      `RerunIsQuiet`), posts the advisory again: exactly when the first run
      posted it and either its author type is not `Bot`, or the thread
      already filled the one page the run lists, so the new comment falls
      outside what the second run sees. */
  lemma RerunRepostsIff(cfg: Config, pr: PullRequest, repo: Repository, poster: string)
    ensures var o := Run(cfg, pr, repo);
            var (pr', repo') := Apply(pr, repo, o, poster);
            var o' := Run(cfg, pr', repo');
            o'.comment.Post? <==> o.comment.Post? && (poster != BotType || |repo.comments| >= PageSize)
  {
    var o := Run(cfg, pr, repo);
    var tier := Classify(TotalChanges(pr.additions, pr.deletions), cfg.thresholds);
    var (pr', repo') := Apply(pr, repo, o, poster);
    var page := FirstPage(repo.comments);
    if o.comment.Post? {
      var c := Comment(poster, o.comment.body);
      assert repo'.comments == repo.comments + [c];
      FirstPageSeesNewComment(repo.comments, c);
      if |repo.comments| < PageSize {
        if poster == BotType {
          AdvisoryBlocksRepost(cfg.commentOnLarge, tier, page, c, pr.additions, pr.deletions, cfg.thresholds.medium);
        } else {
          NonBotCommentIsIgnored(cfg.commentOnLarge, tier, page, c, pr.additions, pr.deletions, cfg.thresholds.medium);
        }
      }
    } else {
      assert repo'.comments == repo.comments;
    }
  }

  /** A small pull request: thresholds 50/200/500, +30 -10. */
  lemma SmallExample()
    ensures var o := Run(Config(Thresholds(50, 200, 500), true), PullRequest(30, 10, []), Repository({}, []));
            o.sizeLabel == "small" && o.linesChanged == 40 && o.comment == NotApplicable
            && o.adds && o.created == Some(LabelDef("small", "00ff00", "PR size: small"))
  {
    var o := Run(Config(Thresholds(50, 200, 500), true), PullRequest(30, 10, []), Repository({}, []));
    assert o.sizeLabel == "small";
    assert "PR size: " + "small" == "PR size: small";
  }

  /** An extra-large pull request with commenting on and an empty thread:
      the stale `small` label goes and one advisory is posted. */
  lemma ExtraLargeExample()
    ensures var o := Run(Config(Thresholds(50, 200, 500), true), PullRequest(300, 250, ["small", "bug"]), Repository({"small"}, []));
            && o.sizeLabel == "extra-large" && o.linesChanged == 550
            && o.removals == ["small"]
            && o.comment.Post?
  {
    assert IsTierName("small") && !IsTierName("bug");
    assert LabelsToRemove(["bug"], ExtraLarge) == [];
    assert LabelsToRemove(["small", "bug"], ExtraLarge) == ["small"];
  }

  /** The advisory of `ExtraLargeExample` renders the 550 lines and the
      medium threshold 200 (`Text.DecimalExamples` gives the renderings). */
  lemma ExtraLargeAdvisoryText()
    ensures var o := Run(Config(Thresholds(50, 200, 500), true), PullRequest(300, 250, ["small", "bug"]), Repository({"small"}, []));
            && o.comment.Post?
            && Contains(o.comment.body, Decimal(550)) && Contains(o.comment.body, Decimal(200))
  {
  }
}

=== FILE: text.dfy ===
/** The two pieces of string handling the comment logic relies on: the
    substring test of `String.prototype.includes` and the decimal rendering
    of an integer inside a template literal. */
module Text {

  predicate IsPrefix(p: string, s: string)
  {
    |p| <= |s| && s[..|p|] == p
  }

  /** `s.includes(sub)`: `sub` occurs in `s` at some position. */
  predicate Contains(s: string, sub: string)
    decreases |s|
  {
    IsPrefix(sub, s) || (|s| > 0 && Contains(s[1..], sub))
  }

  /** Reference definition of `Contains`: an explicit position. */
  ghost predicate OccursAt(s: string, sub: string, i: int)
  {
    0 <= i && i + |sub| <= |s| && s[i..i + |sub|] == sub
  }

  /** `Contains` holds exactly when the substring occurs at some position. */
  lemma {:induction false} ContainsIffOccurs(s: string, sub: string)
    ensures Contains(s, sub) <==> exists i :: OccursAt(s, sub, i)
    decreases |s|
  {
    if IsPrefix(sub, s) {
      assert OccursAt(s, sub, 0);
    } else if |s| > 0 {
      ContainsIffOccurs(s[1..], sub);
      if Contains(s[1..], sub) {
        var i :| OccursAt(s[1..], sub, i);
        assert s[i + 1..i + 1 + |sub|] == s[1..][i..i + |sub|];
        assert OccursAt(s, sub, i + 1);
      } else {
        forall i | OccursAt(s, sub, i)
          ensures false
        {
          if i > 0 {
            assert s[1..][i - 1..i - 1 + |sub|] == s[i..i + |sub|];
            assert OccursAt(s[1..], sub, i - 1);
          }
        }
      }
    } else {
    }
  }

  /** Appending text keeps an occurrence. */
  lemma {:induction false} ContainsExtendRight(s: string, sub: string, t: string)
    requires Contains(s, sub)
    ensures Contains(s + t, sub)
    decreases |s|
  {
    if IsPrefix(sub, s) {
      assert (s + t)[..|sub|] == s[..|sub|];
    } else {
      assert (s + t)[1..] == s[1..] + t;
      ContainsExtendRight(s[1..], sub, t);
    }
  }

  /** Prepending text keeps an occurrence. */
  lemma {:induction false} ContainsExtendLeft(s: string, sub: string, t: string)
    requires Contains(t, sub)
    ensures Contains(s + t, sub)
    decreases |s|
  {
    if |s| == 0 {
      assert s + t == t;
    } else {
      assert (s + t)[1..] == s[1..] + t;
      ContainsExtendLeft(s[1..], sub, t);
    }
  }

  /** The concatenation of a list of pieces, as a template literal builds
      its text. */
  function Join(pieces: seq<string>): string
  {
    if |pieces| == 0 then "" else pieces[0] + Join(pieces[1..])
  }

  /** A joined text contains each of its pieces. */
  lemma {:induction false} JoinContainsPiece(pieces: seq<string>, i: nat)
    requires i < |pieces|
    ensures Contains(Join(pieces), pieces[i])
    decreases i
  {
    if i == 0 {
      assert IsPrefix(pieces[0], pieces[0]);
      ContainsExtendRight(pieces[0], pieces[0], Join(pieces[1..]));
    } else {
      JoinContainsPiece(pieces[1..], i - 1);
      ContainsExtendLeft(pieces[0], pieces[i], Join(pieces[1..]));
    }
  }

  function Digit(d: int): (c: char)
    requires 0 <= d < 10
    ensures '0' <= c <= '9'
    ensures c as int - '0' as int == d
  {
    "0123456789"[d]
  }

  /** Decimal digits of a natural number, most significant first, with no
      leading zero. */
  function NatDecimal(n: nat): (s: string)
    ensures |s| > 0
    ensures forall i :: 0 <= i < |s| ==> '0' <= s[i] <= '9'
    ensures s[0] != '0' || n == 0
    decreases n
  {
    if n < 10 then [Digit(n)] else NatDecimal(n / 10) + [Digit(n % 10)]
  }

  /** An integer of magnitude below 10^21 as a template literal renders it:
      a minus sign for a negative value, then its digits. */
  function Decimal(n: int): string
  {
    if n < 0 then "-" + NatDecimal(-n) else NatDecimal(n)
  }

  /** Reading decimal digits back, most significant first: the value a
      reader of the comment sees. */
  function DigitsValue(s: string): int
  {
    if |s| == 0 then 0
    else DigitsValue(s[..|s| - 1]) * 10 + (s[|s| - 1] as int - '0' as int)
  }

  /** Reading back an optional minus sign and digits. */
  function DecimalValue(s: string): int
  {
    if |s| > 0 && s[0] == '-' then -DigitsValue(s[1..]) else DigitsValue(s)
  }

  /** The digits of a natural number read back as that number. */
  lemma {:induction false} NatDecimalRoundTrip(n: nat)
    ensures DigitsValue(NatDecimal(n)) == n
    decreases n
  {
    if n >= 10 {
      var s := NatDecimal(n);
      assert s[..|s| - 1] == NatDecimal(n / 10);
      NatDecimalRoundTrip(n / 10);
    }
  }

  /** Round trip: the rendering of any integer reads back as that integer,
      so a rendered number names the value it was made from. */
  lemma DecimalRoundTrip(n: int)
    ensures DecimalValue(Decimal(n)) == n
  {
    var digits := NatDecimal(if n < 0 then -n else n);
    NatDecimalRoundTrip(if n < 0 then -n else n);
    assert '0' <= digits[0] <= '9';
    if n < 0 {
      assert ("-" + digits)[1..] == digits;
    }
  }

  /** The renderings of the two numbers the worked example's advisory shows. */
  lemma DecimalExamples()
    ensures Decimal(550) == "550" && Decimal(200) == "200"
  {
  }
}

=== FILE: tiers.dfy ===
/** The four size tiers, their wire-visible label names and their order.
    The label names are user-visible identifiers on the hosting platform, so
    `Name` must produce exactly the strings of the `sizeLabels` array. */
module Tiers {
  import opened Wrappers

  datatype Tier = Small | Medium | Large | ExtraLarge

  /** The label name of a tier, as assigned to `sizeLabel`. */
  function Name(t: Tier): string
  {
    match t
    case Small => "small"
    case Medium => "medium"
    case Large => "large"
    case ExtraLarge => "extra-large"
  }

  /** The `sizeLabels` array: the four tier label names, smallest first. */
  const SizeLabels: seq<string> := ["small", "medium", "large", "extra-large"]

  /** The tiers in increasing order of size. */
  const AllTiers: seq<Tier> := [Small, Medium, Large, ExtraLarge]

  /** Position of a tier in the size order. */
  function Rank(t: Tier): nat
  {
    match t
    case Small => 0
    case Medium => 1
    case Large => 2
    case ExtraLarge => 3
  }

  /** Reads a label name back as a tier; any other label is `None`. */
  function Parse(s: string): Option<Tier>
  {
    if s == "small" then Some(Small)
    else if s == "medium" then Some(Medium)
    else if s == "large" then Some(Large)
    else if s == "extra-large" then Some(ExtraLarge)
    else None
  }

  /** A label is a tier label exactly when it is listed in `sizeLabels`. */
  predicate IsTierName(l: string)
  {
    l in SizeLabels
  }

  /** The name table and the order agree: the tier at each position of
      `AllTiers` is named by the same position of `SizeLabels`, and its rank is
      that position. */
  lemma TablesAgree(t: Tier)
    ensures 0 <= Rank(t) < |AllTiers| == |SizeLabels|
    ensures AllTiers[Rank(t)] == t
    ensures SizeLabels[Rank(t)] == Name(t)
  {
  }

  /** Round trip: naming a tier and parsing the name gives the tier back, and
      every name is a tier label. */
  lemma ParseName(t: Tier)
    ensures Parse(Name(t)) == Some(t)
    ensures IsTierName(Name(t))
  {
  }

  /** The other direction: `Parse` accepts exactly the tier labels, and a
      parsed label is the name of the tier it yields. */
  lemma NameParse(s: string)
    ensures Parse(s).Some? <==> IsTierName(s)
    ensures Parse(s).Some? ==> Name(Parse(s).value) == s
  {
  }

  /** Distinct tiers have distinct label names. */
  lemma NameInjective(t1: Tier, t2: Tier)
    ensures Name(t1) == Name(t2) <==> t1 == t2
  {
  }
}

=== FILE: wrappers.dfy ===
/** The optional-value datatype used wherever the script works with `undefined`
    (a tier name that is not one of the four, a `find` that matches nothing). */
module Wrappers {

  datatype Option<+T> = None | Some(value: T)

}
